=== FILE: README.md ===
# Bank cards service model

A model of the service layer of a Spring bank-card application, with its
properties proved. The layer covers:

- users, who register with a unique email;
- bank cards, issued to users with a random 16-digit number that is stored
  encrypted;
- transfers between two cards of the same owner;
- requests by an owner to block a card, which an administrator completes;
- the table that turns each kind of error into an HTTP answer.

The three database tables (users, cards, block requests) are one in-memory
store, the class `Repositories.Store`. It holds a map from generated id to
record for each table, plus the next id of each table. Its invariant
`Valid()` is the schema's constraints plus two invariants the services maintain.

The schema's constraints:

- emails are unique;
- stored (encrypted) card numbers are unique; equal plaintext numbers are not caught, since each encryption draws a fresh IV;
- every card has a known owner;
- every block request is on a known card.

The invariants the services maintain:

- a block request is made by its card's owner;
- no balance is negative.

Each service operation that changes the database is a method that modifies
the store. The method states its whole new state through pure functions
(`ApplyTransfer`, `Complete`, `Patched`, the cascade functions), and the
properties are proved as lemmas about those functions. Queries are pure
functions over the maps.

Files:

- `text.dfy`: digits and the decimal text of a `Long` in error messages.
- `errors.dfy`: the exception kinds and a `Result` type that carries them.
- `entities.dfy`: users, cards, block requests, statuses, and `LocalDate`
  with `plusYears`.
- `repositories.dfy`: the store, its constraints, the derived queries and
  the cascade deletes.
- `ledger.dfy`: the sum of all card balances, used to state conservation of
  funds.
- `number_generator.dfy`: the 16-digit card-number loop.
- `user_service.dfy`, `card_service.dfy`, `request_block_service.dfy`: the
  three services.
- `exception_api_handler.dfy`: error kind to HTTP status and body.

Error precedence is stated twice:

- as a pure check function (`TransferCheck`, `CreateCheck`), whose contract
  gives, case by case, which error wins;
- as the order-free conditions (`TransferAllowed`, `RequestAllowed`), which
  the check passes if and only if they all hold.

The methods are written as the code's chain of early returns, and are proved
to agree with the check function.

Outside collaborators are parameters:

- the card cipher (`Cipher`), whose encrypt or decrypt may fail with a cause;
- the password encoder (`string -> string`);
- the random digits (`draws`);
- the clock (`today`, `now`).

## Model

| member | source | states |
|---|---|---|
| Text.NaturalString | src/main/java/com/example/bankcards/service/CardService.java:181 | the decimal text of a natural number: at least one digit, no leading zero, and it spells exactly that number |
| Text.LongString | src/main/java/com/example/bankcards/service/CardService.java:181 | the text `"..." + id` appends for a `Long`: the digits of the value, with a leading minus exactly when it is negative, spelling exactly that value |
| Text.LongStringInjective | src/main/java/com/example/bankcards/service/CardService.java:181 | different ids give different texts, so the id in a NotFound message names exactly the missing id |
| Entities.PlusYears | src/main/java/com/example/bankcards/service/CardService.java:82 | the expiry `today.plusYears(1)`: the year moves by the given amount, month and day stay, and 29 February becomes 28 February in a non-leap target year |
| Repositories.FindIdByEmail | src/main/java/com/example/bankcards/entity/user/User.java:31-32 | with emails unique, the lookup by email finds a user exactly when one has that email, and that user is the only one with it |
| Repositories.RequestsWithoutCard | src/main/java/com/example/bankcards/entity/card/Card.java:44-50 | the orphan removal of a card: a block request survives exactly when it is not on that card, and survivors are unchanged |
| Repositories.CardsWithoutOwner | src/main/java/com/example/bankcards/entity/user/User.java:37-38 | the cascade from a user to its cards: a card survives exactly when the user does not own it |
| Repositories.RequestsWithoutUser | src/main/java/com/example/bankcards/entity/user/User.java:44-50 | the cascade from a user to block requests: a request survives exactly when that user neither made it nor owns its card |
| Repositories.Consistent | src/main/java/com/example/bankcards/entity/card/Card.java:27-42 | the schema's constraints (stored encrypted card numbers unique, though equal plaintext numbers are not caught; every card owned by a known user, emails unique, every block request on a known card) plus two invariants the services maintain: a block request is made by its card's owner, and no balance is negative |
| Repositories.Store.Valid | src/main/java/com/example/bankcards/entity/user/User.java:25-42 | the store holds the schema constraints, and every stored id is below the next id its table will generate |
| Repositories.ExistsByEmail | src/main/java/com/example/bankcards/service/UserService.java:45 | `existsByEmail`: some stored user has exactly this email |
| Repositories.ExistsByUserAndCard | src/main/java/com/example/bankcards/repository/RequestBlockRepository.java:13 | `existsByUserAndCard`: some stored request, of any status, is by that user for that card |
| NumberGenerator.GenerateNumber | src/main/java/com/example/bankcards/util/NumberGenerator.java:8-17 | the generated number has 16 characters, all decimal digits, the i-th being the i-th draw of the random source |
| NumberGenerator.LeadingZeroKept | src/main/java/com/example/bankcards/util/NumberGenerator.java:12-14 | nothing constrains the first digit: a first draw of 0 gives a number starting with '0' |
| UserService.Response | src/main/java/com/example/bankcards/service/UserService.java:98-106 | a user response carries the id, both names, the email and the role, and never the password |
| UserService.FindByEmail | src/main/java/com/example/bankcards/service/UserService.java:38-42 | succeeds exactly when a user has the email and returns that user; otherwise NotFound "Пользователь не найден. Email: " + email |
| UserService.FindUserById | src/main/java/com/example/bankcards/service/UserService.java:108-112 | the stored user for a known id; otherwise NotFound "Пользователь не найден. Id: " + id |
| UserService.FindById | src/main/java/com/example/bankcards/service/UserService.java:32-36 | the public view (id, names, email, role) of exactly the stored user; NotFound for an unknown id |
| UserService.FindAll | src/main/java/com/example/bankcards/service/UserService.java:27-30 | one response per stored user, carrying that user's id, first and second name, email and role, and never the password |
| UserService.Patched | src/main/java/com/example/bankcards/service/UserService.java:67-78 | each field present in the update request replaces the old value, the password encoded; absent fields and the role keep their old values |
| UserService.EmptyPatchIsIdentity | src/main/java/com/example/bankcards/service/UserService.java:67-78 | an update request with every field null leaves the user as it was |
| UserService.RepeatedPatchKeepsLast | src/main/java/com/example/bankcards/service/UserService.java:67-78 | sending the same update request twice leaves the user as the second update alone would, the password holding the second call's encoding (BCrypt salts each call, so it is not the first hash) |
| UserService.CreateUser | src/main/java/com/example/bankcards/service/UserService.java:44-60 | a taken email raises UserOperation and stores nothing; otherwise exactly one new user, copied from the request with the password encoded, keeping the store invariant |
| UserService.UpdateUser | src/main/java/com/example/bankcards/service/UserService.java:64-83 | NotFound for an unknown id with nothing changed; otherwise that user becomes its patched version and nothing else changes; an email held by another user is refused by the unique column |
| UserService.UpdatePassword | src/main/java/com/example/bankcards/service/UserService.java:85-90 | NotFound for an unknown email; otherwise only that user's password changes, to the encoded new password |
| UserService.DeleteUser | src/main/java/com/example/bankcards/service/UserService.java:92-96 | NotFound for an unknown id with nothing changed; otherwise exactly that user, its cards and the block requests made by it or on its cards are removed |
| UserService.DeleteUserKeepsConsistency | src/main/java/com/example/bankcards/entity/user/User.java:37-50 | after the user cascade no card or block request refers to a missing row, and the unique columns still hold |
| CardService.MaskPlain | src/main/java/com/example/bankcards/service/CardService.java:175 | the mask is "**** **** **** " followed by exactly the last four characters; a plaintext shorter than four characters fails with an index error |
| CardService.MaskRevealsExactlyLastFour | src/main/java/com/example/bankcards/service/CardService.java:175 | two numbers get the same mask if and only if their last four characters agree |
| CardService.NumberMask | src/main/java/com/example/bankcards/service/CardService.java:166-176 | an encrypted number is decrypted before masking; a failing decryption yields "**** **** **** ****" and no error; the only possible error is the short-number index error |
| CardService.Response | src/main/java/com/example/bankcards/service/CardService.java:152-164 | succeeds exactly when the stored number can be masked; the response carries the masked number, the card's id, expiry, status and balance and the owner's first and second names |
| CardService.FindCardById | src/main/java/com/example/bankcards/service/CardService.java:178-182 | the stored card for a known id; otherwise NotFound "Карта не найдена. ID: " + id |
| CardService.Responses | src/main/java/com/example/bankcards/service/CardService.java:33-36 | succeeds exactly when every requested card's number can be masked, and then holds exactly the requested cards, each with its own card response |
| CardService.FindAllCards | src/main/java/com/example/bankcards/service/CardService.java:32-37 | succeeds exactly when every stored card's number can be masked, and then holds one card response for every stored card |
| CardService.FindCardsByEmail | src/main/java/com/example/bankcards/service/CardService.java:39-45 | NotFound for an unknown email; otherwise succeeds exactly when each of that user's cards can be masked, and then holds the responses of exactly the cards that user owns |
| CardService.FindCardByEmailAndId | src/main/java/com/example/bankcards/service/CardService.java:47-65 | NotFound for an unknown user, then for an unknown card; CardOperation when the card belongs to someone else; for the owner's own card, the card response (masked number, owner's names, stored balance and status), failing only when the number cannot be masked |
| CardService.FindCardBalance | src/main/java/com/example/bankcards/service/CardService.java:67-70 | fails exactly when the full lookup fails, with the same error; for the owner's own card it succeeds exactly when the number can be masked, and returns the stored balance |
| CardService.TransferCheck | src/main/java/com/example/bankcards/service/CardService.java:120-143 | the transfer is refused exactly when one of its conditions fails, and each of the eight possible errors is fixed as the first failure in the order caller, source card, destination card, amount > 0, ownership of both, distinct ids, both ACTIVE, sufficient funds |
| CardService.ApplyTransfer | src/main/java/com/example/bankcards/service/CardService.java:145-149 | the source loses exactly the amount and the destination gains it; no other card and no other field changes; the pair's sum is conserved |
| CardService.TransferConservesTotal | src/main/java/com/example/bankcards/service/CardService.java:145-146 | a transfer leaves the sum of all balances in the store unchanged |
| CardService.AllowedTransferKeepsConsistency | src/main/java/com/example/bankcards/service/CardService.java:141-146 | a transfer that passes the checks keeps the store consistent; in particular the source balance stays non-negative |
| CardService.TransferScenario | src/test/java/com/example/bankcards/service/CardServiceTest.java:209-231 | two active cards of one owner holding 1000 and 500: moving 300 leaves 700 and 800 |
| CardService.TransferMoney | src/main/java/com/example/bankcards/service/CardService.java:119-150 | fails exactly when the check fails, with its error and nothing changed; otherwise the cards become the applied transfer and nothing else changes |
| CardService.CreateCard | src/main/java/com/example/bankcards/service/CardService.java:72-98 | NotFound for an unknown email; otherwise exactly one new card of that user, number = encrypt(drawn number), ACTIVE, balance 1000, expiry today + 1 year; the response shows the last four digits of the plain number; a cipher failure or a clashing ciphertext stores nothing |
| CardService.UpdateStatus | src/main/java/com/example/bankcards/service/CardService.java:100-110 | NotFound for an unknown card; refused exactly for EXPIRED to ACTIVE; every other pair sets the status and changes nothing else |
| CardService.DeleteCard | src/main/java/com/example/bankcards/service/CardService.java:112-117 | NotFound "Карта не найдена. ID: " for an unknown card with nothing changed; otherwise exactly that card and its block requests are removed |
| CardService.DeleteCardKeepsConsistency | src/main/java/com/example/bankcards/entity/card/Card.java:44-50 | after deleting a card with its block requests, no request refers to the deleted card and the store stays consistent |
| RequestBlockService.Response | src/main/java/com/example/bankcards/service/RequestBlockService.java:88-96 | a block response carries the request's id, its user's id, its card's id, its status and its time |
| RequestBlockService.FindAll | src/main/java/com/example/bankcards/service/RequestBlockService.java:31-35 | one response per stored request, carrying its own id, its user, card, status and time |
| RequestBlockService.FindRequestByEmail | src/main/java/com/example/bankcards/service/RequestBlockService.java:38-44 | NotFound for an unknown email; otherwise exactly the requests whose user has that email |
| RequestBlockService.CreateCheck | src/main/java/com/example/bankcards/service/RequestBlockService.java:47-64 | a new request is refused exactly when a condition fails, and the error is the first failure in the order user, card, owner id, not BLOCKED, no earlier request of any status |
| RequestBlockService.OnlyBlockedStatusRefused | src/main/java/com/example/bankcards/service/RequestBlockService.java:55-57 | with the other conditions fixed, the card status decides the check only through BLOCKED: an ACTIVE or EXPIRED card may be requested |
| RequestBlockService.CreateRequestBlock | src/main/java/com/example/bankcards/service/RequestBlockService.java:46-72 | fails exactly when the check fails, storing nothing; otherwise exactly one new NOT_STARTED request of the caller for the card, stamped with the current time, and the card is untouched |
| RequestBlockService.Complete | src/main/java/com/example/bankcards/service/RequestBlockService.java:80-85 | completion makes the request's card BLOCKED and the request COMPLETED whatever they were, and changes no other card or request |
| RequestBlockService.CompleteIsIdempotent | src/main/java/com/example/bankcards/service/RequestBlockService.java:80-85 | completing a request twice gives the same state as completing it once |
| RequestBlockService.CompleteKeepsConsistency | src/main/java/com/example/bankcards/service/RequestBlockService.java:80-85 | completion keeps the store consistent |
| RequestBlockService.CompletedCardCannotBeRequestedAgain | src/main/java/com/example/bankcards/service/RequestBlockService.java:55-64 | once a request is completed, every new request for its card is refused |
| RequestBlockService.CompleteRequestBlock | src/main/java/com/example/bankcards/service/RequestBlockService.java:74-86 | NotFound "Не найден запрос на блокировку" for an unknown request with nothing changed; otherwise the state becomes the completion and nothing else changes |
| ExceptionApiHandler.JoinAppend | src/main/java/com/example/bankcards/exception/handler/ExceptionApiHandler.java:78 | joining two lists is joining each and putting one separator between them |
| ExceptionApiHandler.JoinLength | src/main/java/com/example/bankcards/exception/handler/ExceptionApiHandler.java:78 | the length of a join is the total length of the messages plus one separator length per pair of neighbours |
| ExceptionApiHandler.ValidationMessage | src/main/java/com/example/bankcards/exception/handler/ExceptionApiHandler.java:69-78 | the validation message is the field messages in order, separated by "; " |
| ExceptionApiHandler.Handle | src/main/java/com/example/bankcards/exception/handler/ExceptionApiHandler.java:22-90 | the body and status chosen for each error kind: 404, 401, 400 with the message, the encryption cause's message or null, the fixed unknown-route text, the joined field messages; no handler for the other kinds |
| ExceptionApiHandler.Status | src/main/java/com/example/bankcards/exception/handler/ExceptionApiHandler.java:19-92 | the status is the handler's, or 500 when this class has no handler |
| ExceptionApiHandler.StatusClasses | src/main/java/com/example/bankcards/exception/handler/ExceptionApiHandler.java:22-90 | 404 if and only if not found or unknown route; 401 if and only if bad credentials; 400 if and only if a card, user, encryption, validation or unreadable-body error; 500 otherwise |

## Left out

- The AES-GCM cipher with its random IV and Base64 wrapping is not modelled. Encryption and decryption are supplied functions that may fail, and the IV randomness is folded into the function given for a call.
- BCrypt password hashing is the supplied `encode` function. Its salt is folded into that function.
- Authentication, JWT, security configuration and the controllers are not part of this model. The model takes the service signatures as written; some controllers call them with other argument types.
- Pagination (`Page`/`Pageable`) is not modelled. The list queries return the whole filtered result, keyed by id.
- `@Transactional` and concurrency are not modelled. Each service call is one atomic step; a failing call leaves the store exactly as it was.
- The second `RequestBlock` entity in the `entity/requestBlock` package is not used by the services and is not part of this model.
- DTO validation annotations are not modelled. Requests are plain datatypes, and the validation failure reaches the model only as the list of field messages given to `ExceptionApiHandler.Handle`. A null field message is not modelled; a Java null would be joined as "null".
- The clock reads `LocalDate.now()` and `LocalDateTime.now()` are parameters. The timestamp is an integer, only stored and returned.
- Ids and amounts are unbounded. `Long` overflow of ids and the `LocalDate` year range are not modelled. `BigDecimal` is `real`, which is exact for the add, subtract and compare the services use. Scale, which `BigDecimal.equals` would see, is not modelled.
- Entities are values in maps keyed by id. JPA keeps one managed instance per id inside a transaction, so a setter followed by `save` is a map update and no aliasing is lost.
- Ownership is compared by user id in both services. `CardService` compares `User` objects with `equals`, which is identity; that is the same within one persistence context.
- Java nulls appear only where the code checks them: the optional fields of an update request, and the optional cause of an encryption error.
- Saving a card with a ciphertext that is already stored, or a user with another user's email, violates a unique column. The model gives the `DataIntegrityViolation` error and stores nothing. No handler in `ExceptionApiHandler` takes that error, so the answer is 500.
- The text of the cipher's exceptions other than the encryption message is not modelled; the cause is carried as given.
- Responses do not carry the lazily loaded collections (a user's cards, a card's requests). Those collections exist only to cascade deletes, and the cascade functions model that.
- MaskPlain: Java's `substring` counts UTF-16 code units and Dafny counts characters. The two agree for card numbers, which are ASCII digits, but a plaintext with characters outside the Basic Multilingual Plane would be cut differently.

=== FILE: card_service.dfy ===
/**
 * CardService: card lookups for the owner, issuing, status changes, deletion
 * and transfers between the caller's own cards, plus the number mask.
 */
module CardService {
  import opened Text
  import opened Errors
  import opened Entities
  import opened Repositories
  import opened NumberGenerator
  import UserService
  import opened Ledger

  /** The seeded balance of a new card. */
  const StartingBalance: Money := 1000.0

  const MaskPrefix := "**** **** **** "
  /** Shown when the stored number cannot be decrypted. */
  const FullMask := "**** **** **** ****"

  const NotOwnerMessage := "Вы не являетесь владельцем этой карты."
  const ExpiredActivationMessage := "Невозможно активировать просроченную карту"
  const NonPositiveAmountMessage := "Сумма должна быть положительной"
  const ForeignCardsMessage := "Перевод возможен только между вашими картами"
  const SameCardMessage := "Нельзя переводить на ту же карту"
  const InactiveCardsMessage := "Перевод возможен только между активными картами"
  const InsufficientFundsMessage := "Недостаточно средств"
  const EncryptMessage := "Ошибка при шифровании - "

  function CardNotFound(id: CardId): Error {
    NotFound("Карта не найдена. ID: " + LongString(id))
  }

  // ---------------------------------------------------------------------------
  // Collaborator and messages
  // ---------------------------------------------------------------------------

  /** What one call of the card-number cipher gives: a text, or the exception's cause. */
  datatype Ciphered = Ciphered(text: string) | CipherFailed(cause: Cause)

  /**
   * The card-number cipher (AES-GCM with a fresh random IV, Base64) as the
   * service sees it. The random IV is folded into the function supplied for a call.
   */
  datatype Cipher = Cipher(encrypt: string -> Ciphered, decrypt: string -> Ciphered)

  datatype CardResponse = CardResponse(
    id: CardId, cardNumber: string, firstName: string, secondName: string,
    expirationDate: Date, status: CardStatus, balance: Money)

  datatype TransferRequest = TransferRequest(fromCardId: CardId, toCardId: CardId, amount: Money)

  // ---------------------------------------------------------------------------
  // The number mask
  // ---------------------------------------------------------------------------

  /** `"**** **** **** " + number.substring(number.length() - 4)`, which throws below four characters. */
  function MaskPlain(plain: string): (r: Result<string>)
    ensures r.Ok? <==> |plain| >= 4
    ensures r.Ok? ==> |r.value| == |MaskPrefix| + 4 && r.value[..|MaskPrefix|] == MaskPrefix
    ensures r.Ok? ==> r.value[|MaskPrefix|..] == plain[|plain| - 4..]
    ensures r.Err? ==> r.error == IndexOutOfBounds
  {
    if |plain| < 4 then Err(IndexOutOfBounds) else Ok(MaskPrefix + plain[|plain| - 4..])
  }

  /** Two plaintexts get the same mask exactly when their last four characters agree. */
  lemma MaskRevealsExactlyLastFour(p: string, q: string)
    requires |p| >= 4 && |q| >= 4
    ensures MaskPlain(p) == MaskPlain(q) <==> p[|p| - 4..] == q[|q| - 4..]
  {
    if MaskPlain(p) == MaskPlain(q) {
      assert MaskPlain(p).value[|MaskPrefix|..] == MaskPlain(q).value[|MaskPrefix|..];
    }
  }

  /**
   * `numberMask`: an encrypted number is decrypted first, and a failing
   * decryption gives the all-asterisk mask instead of an error. The substring
   * itself is outside the try block, so a plaintext shorter than four
   * characters still fails.
   */
  function NumberMask(number: string, encrypted: bool, decrypt: string -> Ciphered): (r: Result<string>)
    ensures encrypted && decrypt(number).CipherFailed? ==> r == Ok(FullMask)
    ensures encrypted && decrypt(number).Ciphered? ==> r == MaskPlain(decrypt(number).text)
    ensures !encrypted ==> r == MaskPlain(number)
    ensures r.Err? ==> r.error == IndexOutOfBounds
  {
    if encrypted then
      match decrypt(number)
      case CipherFailed(_) => Ok(FullMask)
      case Ciphered(plain) => MaskPlain(plain)
    else MaskPlain(number)
  }

  // ---------------------------------------------------------------------------
  // Queries
  // ---------------------------------------------------------------------------

  /** The private `response`: the card with its masked number and its owner's names. */
  function Response(id: CardId, card: Card, owner: User, decrypt: string -> Ciphered): (r: Result<CardResponse>)
    ensures r.Ok? <==> NumberMask(card.number, true, decrypt).Ok?
    ensures r.Ok? ==> r.value.cardNumber == NumberMask(card.number, true, decrypt).value
    ensures r.Ok? ==> r.value.id == id && r.value.balance == card.balance && r.value.status == card.status
    ensures r.Ok? ==> r.value.expirationDate == card.expirationDate
    ensures r.Ok? ==> r.value.firstName == owner.firstName && r.value.secondName == owner.secondName
    ensures r.Err? ==> r.error == IndexOutOfBounds
  {
    var number :- NumberMask(card.number, true, decrypt);
    Ok(CardResponse(id, number, owner.firstName, owner.secondName, card.expirationDate, card.status, card.balance))
  }

  /** `findCardById`: the stored card, or NotFound naming the id. */
  function FindCardById(cards: map<CardId, Card>, id: CardId): (r: Result<Card>)
    ensures r.Ok? <==> id in cards
    ensures r.Ok? ==> r.value == cards[id]
    ensures r.Err? ==> r.error == CardNotFound(id)
  {
    if id in cards then Ok(cards[id]) else Err(CardNotFound(id))
  }

  /** The responses for the cards in `ids`; one failing mask fails the whole page. */
  function Responses(users: map<UserId, User>, cards: map<CardId, Card>, ids: set<CardId>, decrypt: string -> Ciphered): (r: Result<map<CardId, CardResponse>>)
    requires ids <= cards.Keys && OwnersKnown(users, cards)
    ensures r.Ok? <==> forall id :: id in ids ==> NumberMask(cards[id].number, true, decrypt).Ok?
    ensures r.Ok? ==> r.value.Keys == ids
    ensures r.Ok? ==> forall id :: id in ids ==> r.value[id] == Response(id, cards[id], users[cards[id].owner], decrypt).value
    ensures r.Ok? ==> forall id :: id in ids ==> r.value[id].balance == cards[id].balance && r.value[id].status == cards[id].status
    ensures r.Err? ==> r.error == IndexOutOfBounds
  {
    if exists id | id in ids :: Response(id, cards[id], users[cards[id].owner], decrypt).Err? then Err(IndexOutOfBounds)
    else Ok(map id | id in ids :: Response(id, cards[id], users[cards[id].owner], decrypt).value)
  }

  /** `findAllCards` without paging. */
  function FindAllCards(users: map<UserId, User>, cards: map<CardId, Card>, decrypt: string -> Ciphered): (r: Result<map<CardId, CardResponse>>)
    requires OwnersKnown(users, cards)
    ensures r.Ok? <==> forall id :: id in cards ==> NumberMask(cards[id].number, true, decrypt).Ok?
    ensures r.Ok? ==> r.value.Keys == cards.Keys
    ensures r.Ok? ==> forall id :: id in cards ==> r.value[id] == Response(id, cards[id], users[cards[id].owner], decrypt).value
    ensures r.Err? ==> r.error == IndexOutOfBounds
  {
    Responses(users, cards, cards.Keys, decrypt)
  }

  /** `findCardsByEmail` without paging: NotFound for an unknown email, else exactly that user's cards. */
  function FindCardsByEmail(users: map<UserId, User>, cards: map<CardId, Card>, email: string, decrypt: string -> Ciphered): (r: Result<map<CardId, CardResponse>>)
    requires EmailsUnique(users) && OwnersKnown(users, cards)
    ensures !ExistsByEmail(users, email) ==> r == Err(UserService.UserNotFoundByEmail(email))
    ensures ExistsByEmail(users, email) ==>
      (r.Ok? <==> forall id :: id in cards && users[cards[id].owner].email == email ==> NumberMask(cards[id].number, true, decrypt).Ok?)
    ensures ExistsByEmail(users, email) && r.Err? ==> r.error == IndexOutOfBounds
    ensures r.Ok? ==> forall id :: id in r.value <==> id in cards && users[cards[id].owner].email == email
    ensures r.Ok? ==> forall id :: id in r.value ==> r.value[id] == Response(id, cards[id], users[cards[id].owner], decrypt).value
  {
    var uid :- UserService.FindByEmail(users, email);
    Responses(users, cards, (set id | id in cards && cards[id].owner == uid), decrypt)
  }

  /**
   * `findCardByEmailAndId`: NotFound for an unknown email, then for an unknown
   * card; a card of another user is refused; otherwise the card as stored.
   */
  function FindCardByEmailAndId(users: map<UserId, User>, cards: map<CardId, Card>, email: string, cardId: CardId, decrypt: string -> Ciphered): (r: Result<CardResponse>)
    requires EmailsUnique(users) && OwnersKnown(users, cards)
    ensures !ExistsByEmail(users, email) ==> r == Err(UserService.UserNotFoundByEmail(email))
    ensures ExistsByEmail(users, email) && cardId !in cards ==> r == Err(CardNotFound(cardId))
    ensures ExistsByEmail(users, email) && cardId in cards && users[cards[cardId].owner].email != email ==>
      r == Err(CardOperation(NotOwnerMessage))
    ensures ExistsByEmail(users, email) && cardId in cards && users[cards[cardId].owner].email == email ==>
      (r.Ok? <==> NumberMask(cards[cardId].number, true, decrypt).Ok?)
    ensures ExistsByEmail(users, email) && cardId in cards && users[cards[cardId].owner].email == email ==>
      r == Response(cardId, cards[cardId], users[cards[cardId].owner], decrypt)
    ensures r.Ok? ==> cardId in cards && cards[cardId].owner in users && users[cards[cardId].owner].email == email
    ensures r.Ok? ==> r.value.id == cardId && r.value.balance == cards[cardId].balance && r.value.status == cards[cardId].status
    ensures r.Ok? ==> r.value.cardNumber == NumberMask(cards[cardId].number, true, decrypt).value
    ensures r.Ok? ==> r.value.firstName == users[cards[cardId].owner].firstName && r.value.secondName == users[cards[cardId].owner].secondName
  {
    var uid :- UserService.FindByEmail(users, email);
    var card :- FindCardById(cards, cardId);
    if card.owner != uid then Err(CardOperation(NotOwnerMessage))
    else Response(cardId, card, users[uid], decrypt)
  }

  /** `findCardBalance`: the owner's card balance, with the same errors as the full lookup. */
  function FindCardBalance(users: map<UserId, User>, cards: map<CardId, Card>, email: string, cardId: CardId, decrypt: string -> Ciphered): (r: Result<Money>)
    requires EmailsUnique(users) && OwnersKnown(users, cards)
    ensures r.Ok? <==> FindCardByEmailAndId(users, cards, email, cardId, decrypt).Ok?
    ensures ExistsByEmail(users, email) && cardId in cards && users[cards[cardId].owner].email == email ==>
      (r.Ok? <==> NumberMask(cards[cardId].number, true, decrypt).Ok?)
    ensures r.Ok? ==> cardId in cards && r.value == cards[cardId].balance
    ensures r.Err? ==> r.error == FindCardByEmailAndId(users, cards, email, cardId, decrypt).error
  {
    var response :- FindCardByEmailAndId(users, cards, email, cardId, decrypt);
    Ok(response.balance)
  }

  // ---------------------------------------------------------------------------
  // Transfers
  // ---------------------------------------------------------------------------

  /** The caller and both cards exist. */
  predicate Resolved(users: map<UserId, User>, cards: map<CardId, Card>, email: string, req: TransferRequest) {
    ExistsByEmail(users, email) && req.fromCardId in cards && req.toCardId in cards
  }

  /** Both cards belong to the user with this email. */
  predicate OwnedByCaller(users: map<UserId, User>, cards: map<CardId, Card>, email: string, req: TransferRequest)
    requires req.fromCardId in cards && req.toCardId in cards
  {
    && cards[req.fromCardId].owner in users && users[cards[req.fromCardId].owner].email == email
    && cards[req.toCardId].owner in users && users[cards[req.toCardId].owner].email == email
  }

  /** Every condition of a transfer, without regard to the order in which they are checked. */
  predicate TransferAllowed(users: map<UserId, User>, cards: map<CardId, Card>, email: string, req: TransferRequest) {
    && Resolved(users, cards, email, req)
    && req.amount > 0.0
    && OwnedByCaller(users, cards, email, req)
    && req.fromCardId != req.toCardId
    && cards[req.fromCardId].status == ACTIVE && cards[req.toCardId].status == ACTIVE
    && cards[req.fromCardId].balance >= req.amount
  }

  /** The error `transferMoney` raises: the first failing check, in the order the code makes them. */
  function TransferCheck(users: map<UserId, User>, cards: map<CardId, Card>, email: string, req: TransferRequest): (r: Option<Error>)
    requires EmailsUnique(users)
    ensures r.None? <==> TransferAllowed(users, cards, email, req)
    ensures !ExistsByEmail(users, email) ==> r == Some(UserService.UserNotFoundByEmail(email))
    ensures ExistsByEmail(users, email) && req.fromCardId !in cards ==> r == Some(CardNotFound(req.fromCardId))
    ensures ExistsByEmail(users, email) && req.fromCardId in cards && req.toCardId !in cards ==>
      r == Some(CardNotFound(req.toCardId))
    ensures Resolved(users, cards, email, req) && req.amount <= 0.0 ==>
      r == Some(CardOperation(NonPositiveAmountMessage))
    ensures Resolved(users, cards, email, req) && req.amount > 0.0 && !OwnedByCaller(users, cards, email, req) ==>
      r == Some(CardOperation(ForeignCardsMessage))
    ensures (Resolved(users, cards, email, req) && req.amount > 0.0 && OwnedByCaller(users, cards, email, req)
             && req.fromCardId == req.toCardId) ==>
      r == Some(CardOperation(SameCardMessage))
    ensures (Resolved(users, cards, email, req) && req.amount > 0.0 && OwnedByCaller(users, cards, email, req)
             && req.fromCardId != req.toCardId
             && (cards[req.fromCardId].status != ACTIVE || cards[req.toCardId].status != ACTIVE)) ==>
      r == Some(CardOperation(InactiveCardsMessage))
    ensures (Resolved(users, cards, email, req) && req.amount > 0.0 && OwnedByCaller(users, cards, email, req)
             && req.fromCardId != req.toCardId
             && cards[req.fromCardId].status == ACTIVE && cards[req.toCardId].status == ACTIVE
             && cards[req.fromCardId].balance < req.amount) ==>
      r == Some(CardOperation(InsufficientFundsMessage))
  {
    match UserService.FindByEmail(users, email)
    case Err(e) => Some(e)
    case Ok(uid) =>
      if req.fromCardId !in cards then Some(CardNotFound(req.fromCardId))
      else if req.toCardId !in cards then Some(CardNotFound(req.toCardId))
      else
        var from, to := cards[req.fromCardId], cards[req.toCardId];
        if req.amount <= 0.0 then Some(CardOperation(NonPositiveAmountMessage))
        else if from.owner != uid || to.owner != uid then Some(CardOperation(ForeignCardsMessage))
        else if req.fromCardId == req.toCardId then Some(CardOperation(SameCardMessage))
        else if from.status != ACTIVE || to.status != ACTIVE then Some(CardOperation(InactiveCardsMessage))
        else if from.balance < req.amount then Some(CardOperation(InsufficientFundsMessage))
        else None
  }

  /** The two balance updates of a transfer; every other card and every other field is untouched. */
  function ApplyTransfer(cards: map<CardId, Card>, from: CardId, to: CardId, amount: Money): (r: map<CardId, Card>)
    requires from in cards && to in cards && from != to
    ensures r.Keys == cards.Keys
    ensures r[from] == cards[from].(balance := cards[from].balance - amount)
    ensures r[to] == cards[to].(balance := cards[to].balance + amount)
    ensures r[from].balance + r[to].balance == cards[from].balance + cards[to].balance
    ensures forall c :: c in cards && c != from && c != to ==> r[c] == cards[c]
  {
    cards[from := cards[from].(balance := cards[from].balance - amount)]
         [to := cards[to].(balance := cards[to].balance + amount)]
  }

  /** Conservation of funds: a transfer changes no card's total, only where the money is. */
  lemma TransferConservesTotal(cards: map<CardId, Card>, from: CardId, to: CardId, amount: Money)
    requires from in cards && to in cards && from != to
    ensures TotalBalance(ApplyTransfer(cards, from, to, amount)) == TotalBalance(cards)
  {
    var after := ApplyTransfer(cards, from, to, amount);
    var ids := cards.Keys;
    SumOverRemove(cards, ids, from);
    SumOverRemove(cards, ids - {from}, to);
    SumOverRemove(after, ids, from);
    SumOverRemove(after, ids - {from}, to);
    SumOverSameBalances(cards, after, ids - {from} - {to});
  }

  /** A transfer that passes every check keeps the store consistent; in particular no balance goes negative. */
  lemma AllowedTransferKeepsConsistency(users: map<UserId, User>, cards: map<CardId, Card>, requests: map<RequestId, BlockRequest>, email: string, req: TransferRequest)
    requires Consistent(users, cards, requests)
    requires TransferAllowed(users, cards, email, req)
    ensures Consistent(users, ApplyTransfer(cards, req.fromCardId, req.toCardId, req.amount), requests)
    ensures ApplyTransfer(cards, req.fromCardId, req.toCardId, req.amount)[req.fromCardId].balance >= 0.0
  {
    var after := ApplyTransfer(cards, req.fromCardId, req.toCardId, req.amount);
    forall a, b | a in after && b in after && a != b
      ensures after[a].number != after[b].number
    {
      assert after[a].number == cards[a].number && after[b].number == cards[b].number;
    }
  }

  /** Card A with 1000 and card B with 500, same owner, both active: moving 300 leaves 700 and 800. */
  lemma TransferScenario(owner: UserId, number1: string, number2: string, expiry: Date)
    ensures var cards := map[1 := Card(number1, owner, expiry, ACTIVE, 1000.0), 2 := Card(number2, owner, expiry, ACTIVE, 500.0)];
      var after := ApplyTransfer(cards, 1, 2, 300.0);
      after[1].balance == 700.0 && after[2].balance == 800.0
  {
  }

  /**
   * `transferMoney`: the first failing check is raised and nothing changes;
   * otherwise the source is debited and the destination credited by the amount.
   */
  method TransferMoney(db: Store, email: string, req: TransferRequest) returns (r: Result<()>)
    requires db.Valid()
    modifies db
    ensures db.Valid()
    ensures r.Err? <==> TransferCheck(old(db.users), old(db.cards), email, req).Some?
    ensures r.Err? ==> r.error == TransferCheck(old(db.users), old(db.cards), email, req).value && unchanged(db)
    ensures r.Ok? ==>
      && db.cards == ApplyTransfer(old(db.cards), req.fromCardId, req.toCardId, req.amount)
      && db.users == old(db.users) && db.requests == old(db.requests)
      && db.nextUserId == old(db.nextUserId) && db.nextCardId == old(db.nextCardId)
      && db.nextRequestId == old(db.nextRequestId)
  {
    var user :- UserService.FindByEmail(db.users, email);
    var fromCard :- FindCardById(db.cards, req.fromCardId);
    var toCard :- FindCardById(db.cards, req.toCardId);
    if req.amount <= 0.0 {
      return Err(CardOperation(NonPositiveAmountMessage));
    }
    if fromCard.owner != user || toCard.owner != user {
      return Err(CardOperation(ForeignCardsMessage));
    }
    if req.fromCardId == req.toCardId {
      return Err(CardOperation(SameCardMessage));
    }
    if fromCard.status != ACTIVE || toCard.status != ACTIVE {
      return Err(CardOperation(InactiveCardsMessage));
    }
    if fromCard.balance < req.amount {
      return Err(CardOperation(InsufficientFundsMessage));
    }
    AllowedTransferKeepsConsistency(db.users, db.cards, db.requests, email, req);
    db.cards := db.cards[req.fromCardId := fromCard.(balance := fromCard.balance - req.amount)];
    db.cards := db.cards[req.toCardId := toCard.(balance := toCard.balance + req.amount)];
    r := Ok(());
  }

  // ---------------------------------------------------------------------------
  // Issuing, status changes and deletion
  // ---------------------------------------------------------------------------

  /** Some stored card already has this (encrypted) number. */
  predicate NumberTaken(cards: map<CardId, Card>, number: string) {
    exists c :: c in cards && cards[c].number == number
  }

  /**
   * `createCard`: NotFound for an unknown email; otherwise a freshly drawn
   * number is encrypted and exactly one card is stored for that user, active,
   * with the seeded balance and an expiry one year from today. A cipher
   * failure, or a ciphertext that the unique column refuses, stores nothing.
   */
  method CreateCard(db: Store, email: string, today: Date, draws: seq<Digit>, cipher: Cipher) returns (r: Result<CardResponse>)
    requires db.Valid() && |draws| >= NumberLength
    modifies db
    ensures db.Valid()
    ensures r.Err? ==> unchanged(db)
    ensures !ExistsByEmail(old(db.users), email) ==> r == Err(UserService.UserNotFoundByEmail(email))
    ensures ExistsByEmail(old(db.users), email) && cipher.encrypt(DrawnNumber(draws)).CipherFailed? ==>
      r == Err(EncryptFailure(EncryptMessage, Some(cipher.encrypt(DrawnNumber(draws)).cause)))
    ensures (ExistsByEmail(old(db.users), email) && cipher.encrypt(DrawnNumber(draws)).Ciphered?
             && NumberTaken(old(db.cards), cipher.encrypt(DrawnNumber(draws)).text)) ==>
      r == Err(DataIntegrityViolation)
    ensures r.Ok? <==>
      ExistsByEmail(old(db.users), email) && cipher.encrypt(DrawnNumber(draws)).Ciphered?
      && !NumberTaken(old(db.cards), cipher.encrypt(DrawnNumber(draws)).text)
    ensures r.Ok? ==>
      var id := old(db.nextCardId);
      var owner := FindIdByEmail(old(db.users), email).value;
      var card := Card(cipher.encrypt(DrawnNumber(draws)).text, owner, PlusYears(today, 1), ACTIVE, StartingBalance);
      && id !in old(db.cards)
      && db.cards == old(db.cards)[id := card]
      && (forall q :: q in db.requests ==> db.requests[q].card != id)
      && r.value == CardResponse(id, MaskPrefix + DrawnNumber(draws)[NumberLength - 4..],
                                 old(db.users)[owner].firstName, old(db.users)[owner].secondName,
                                 PlusYears(today, 1), ACTIVE, StartingBalance)
      && db.users == old(db.users) && db.requests == old(db.requests)
      && db.nextCardId == id + 1 && db.nextUserId == old(db.nextUserId) && db.nextRequestId == old(db.nextRequestId)
  {
    var owner :- UserService.FindByEmail(db.users, email);
    var number := GenerateNumber(draws);
    var encrypted;
    match cipher.encrypt(number) {
      case CipherFailed(cause) =>
        return Err(EncryptFailure(EncryptMessage, Some(cause)));
      case Ciphered(text) =>
        encrypted := text;
    }
    if exists c | c in db.cards :: db.cards[c].number == encrypted {
      return Err(DataIntegrityViolation);
    }
    var card := Card(encrypted, owner, PlusYears(today, 1), ACTIVE, StartingBalance);
    var id := db.nextCardId;
    db.cards := db.cards[id := card];
    db.nextCardId := id + 1;
    // The plain number has sixteen digits, so its mask cannot fail.
    var masked := NumberMask(number, false, cipher.decrypt);
    assert masked.Ok?;
    r := Ok(CardResponse(id, masked.value, db.users[owner].firstName, db.users[owner].secondName,
                         card.expirationDate, card.status, card.balance));
  }

  /**
   * `updateStatus`: NotFound for an unknown card; the one refused transition is
   * EXPIRED to ACTIVE; any other pair sets the status and nothing else.
   */
  method UpdateStatus(db: Store, cardId: CardId, newStatus: CardStatus) returns (r: Result<()>)
    requires db.Valid()
    modifies db
    ensures db.Valid()
    ensures cardId !in old(db.cards) ==> r == Err(CardNotFound(cardId))
    ensures cardId in old(db.cards) && old(db.cards)[cardId].status == EXPIRED && newStatus == ACTIVE ==>
      r == Err(CardOperation(ExpiredActivationMessage))
    ensures r.Ok? <==> cardId in old(db.cards) && !(old(db.cards)[cardId].status == EXPIRED && newStatus == ACTIVE)
    ensures r.Err? ==> unchanged(db)
    ensures r.Ok? ==>
      && db.cards == old(db.cards)[cardId := old(db.cards)[cardId].(status := newStatus)]
      && db.users == old(db.users) && db.requests == old(db.requests)
      && db.nextUserId == old(db.nextUserId) && db.nextCardId == old(db.nextCardId)
      && db.nextRequestId == old(db.nextRequestId)
  {
    var card :- FindCardById(db.cards, cardId);
    if card.status == EXPIRED && newStatus == ACTIVE {
      return Err(CardOperation(ExpiredActivationMessage));
    }
    db.cards := db.cards[cardId := card.(status := newStatus)];
    r := Ok(());
  }

  /** `deleteCard`: NotFound for an unknown card; otherwise that card and its block requests go. */
  method DeleteCard(db: Store, cardId: CardId) returns (r: Result<()>)
    requires db.Valid()
    modifies db
    ensures db.Valid()
    ensures cardId !in old(db.cards) ==> r == Err(CardNotFound(cardId)) && unchanged(db)
    ensures cardId in old(db.cards) ==>
      && r == Ok(())
      && db.cards == old(db.cards) - {cardId}
      && db.requests == RequestsWithoutCard(old(db.requests), cardId)
      && db.users == old(db.users)
      && db.nextUserId == old(db.nextUserId) && db.nextCardId == old(db.nextCardId)
      && db.nextRequestId == old(db.nextRequestId)
  {
    var _ :- FindCardById(db.cards, cardId);
    DeleteCardKeepsConsistency(db.users, db.cards, db.requests, cardId);
    db.requests := RequestsWithoutCard(db.requests, cardId);
    db.cards := db.cards - {cardId};
    r := Ok(());
  }

  /** Deleting a card with its block requests leaves no request pointing at a missing card. */
  lemma DeleteCardKeepsConsistency(users: map<UserId, User>, cards: map<CardId, Card>, requests: map<RequestId, BlockRequest>, cardId: CardId)
    requires Consistent(users, cards, requests)
    ensures Consistent(users, cards - {cardId}, RequestsWithoutCard(requests, cardId))
    ensures forall q :: q in RequestsWithoutCard(requests, cardId) ==> RequestsWithoutCard(requests, cardId)[q].card != cardId
  {
  }
}

=== FILE: entities.dfy ===
/**
 * The three persisted entities (users, cards, block requests) as records.
 * Ids are the generated primary keys; a reference to another entity is its id.
 */
module Entities {

  type UserId = int
  type CardId = int
  type RequestId = int

  /** BigDecimal amounts: only added, subtracted and compared, all exact. */
  type Money = real

  /** A LocalDateTime reading of the clock; only stored and returned. */
  type Timestamp = int

  datatype Role = ADMIN | USER
  datatype CardStatus = ACTIVE | BLOCKED | EXPIRED
  datatype RequestStatus = NOT_STARTED | COMPLETED

  // ---------------------------------------------------------------------------
  // LocalDate on the proleptic ISO calendar
  // ---------------------------------------------------------------------------

  predicate IsLeap(year: int) {
    year % 4 == 0 && (year % 100 != 0 || year % 400 == 0)
  }

  function MonthLength(year: int, month: int): (n: int)
    requires 1 <= month <= 12
    ensures 28 <= n <= 31
  {
    if month == 2 then (if IsLeap(year) then 29 else 28)
    else if month == 4 || month == 6 || month == 9 || month == 11 then 30
    else 31
  }

  datatype LocalDate = LocalDate(year: int, month: int, day: int)

  predicate ValidDate(d: LocalDate) {
    1 <= d.month <= 12 && 1 <= d.day <= MonthLength(d.year, d.month)
  }

  type Date = d: LocalDate | ValidDate(d) witness LocalDate(1970, 1, 1)

  /**
   * `LocalDate.plusYears`: same month and day in the target year, except that
   * 29 February becomes 28 February when the target year is not a leap year.
   */
  function PlusYears(d: Date, years: int): (r: Date)
    ensures r.year == d.year + years && r.month == d.month
    ensures r.day == d.day || (d.month == 2 && d.day == 29 && !IsLeap(d.year + years) && r.day == 28)
  {
    if years == 0 then d
    else
      var y := d.year + years;
      var last := MonthLength(y, d.month);
      LocalDate(y, d.month, if d.day <= last then d.day else last)
  }

  // ---------------------------------------------------------------------------
  // Entities
  // ---------------------------------------------------------------------------

  /** A row of `users`; every column is NOT NULL, email is UNIQUE across rows. */
  datatype User = User(firstName: string, secondName: string, email: string, password: string, role: Role)

  /**
   * A row of `cards`: the encrypted number (UNIQUE), the owning user, the
   * expiration date, the status and the balance, none of them null.
   */
  datatype Card = Card(number: string, owner: UserId, expirationDate: Date, status: CardStatus, balance: Money)

  /** A row of `request_block`: the card and user it refers to, its status and creation time. */
  datatype BlockRequest = BlockRequest(card: CardId, user: UserId, status: RequestStatus, requestedAt: Timestamp)
}

=== FILE: errors.dfy ===
/** The exceptions the services raise, and the optional and result types that carry values. */
module Errors {
  /** A value that may be absent (a Java null or an empty `Optional`). */
  datatype Option<+T> = None | Some(value: T)

  /** The underlying exception an EncryptException wraps; its own message may be null. */
  datatype Cause = Cause(message: Option<string>)

  datatype Error =
    | NotFound(message: string)                           // NotFoundException
    | CardOperation(message: string)                      // CardOperationException
    | UserOperation(message: string)                      // UserOperationException
    | InvalidCredentials(message: string)                 // InvalidCredentialsException
    | EncryptFailure(message: string, cause: Option<Cause>) // EncryptException
    | NoHandlerFound                                      // unknown route
    | ArgumentNotValid(fieldMessages: seq<string>)        // bean validation of a request body
    | NotReadable(message: string)                        // unreadable request body
    | IndexOutOfBounds                                    // String.substring with a negative start
    | DataIntegrityViolation                              // a unique column rejected the row at save

  datatype Result<+T> = Ok(value: T) | Err(error: Error) {
    predicate IsFailure() { Err? }
    function PropagateFailure<U>(): Result<U> requires Err? { Err(error) }
    function Extract(): T requires Ok? { value }
  }
}

=== FILE: exception_api_handler.dfy ===
/** ExceptionApiHandler: the HTTP status and body each exception kind is answered with. */
module ExceptionApiHandler {
  import opened Text
  import opened Errors

  const NoHandlerMessage := "Страница или метод не найдены"
  const ValidationSeparator := "; "

  const BadRequest := 400
  const Unauthorized := 401
  const NotFoundStatus := 404
  /** What the framework answers for an exception no handler here takes. */
  const InternalServerError := 500

  datatype Body = ErrorMessage(message: string) | EncryptErrorMessage(message: string, cause: Option<string>)

  datatype Response = Response(status: int, body: Body)

  /** `String.join(sep, parts)`: the parts in order, `sep` between neighbours. */
  function Join(parts: seq<string>, sep: string): (s: string)
    decreases |parts|
  {
    if |parts| == 0 then ""
    else if |parts| == 1 then parts[0]
    else parts[0] + sep + Join(parts[1..], sep)
  }

  /** Joining a concatenation is joining the halves with one separator between them. */
  lemma {:induction false} JoinAppend(a: seq<string>, b: seq<string>, sep: string)
    requires |a| > 0 && |b| > 0
    ensures Join(a + b, sep) == Join(a, sep) + sep + Join(b, sep)
    decreases |a|
  {
    if |a| == 1 {
      assert (a + b)[1..] == b;
    } else {
      assert (a + b)[1..] == a[1..] + b;
      JoinAppend(a[1..], b, sep);
    }
  }

  /** The total length of the parts. */
  function TotalLength(parts: seq<string>): nat {
    if |parts| == 0 then 0 else |parts[0]| + TotalLength(parts[1..])
  }

  /** The length of a join is the total length of the parts plus one separator length per pair of neighbours. */
  lemma {:induction false} JoinLength(parts: seq<string>, sep: string)
    requires |parts| > 0
    ensures |Join(parts, sep)| == TotalLength(parts) + (|parts| - 1) * |sep|
    decreases |parts|
  {
    if |parts| > 1 {
      JoinLength(parts[1..], sep);
    }
  }

  /** The message of a failed request-body validation: all field messages in order, joined by "; ". */
  function ValidationMessage(fieldMessages: seq<string>): (m: string)
    ensures |fieldMessages| == 0 ==> m == ""
    ensures |fieldMessages| == 1 ==> m == fieldMessages[0]
    ensures |fieldMessages| > 1 ==> m == fieldMessages[0] + ValidationSeparator + ValidationMessage(fieldMessages[1..])
  {
    Join(fieldMessages, ValidationSeparator)
  }

  /**
   * The handler chosen for an exception, or None when this class has no
   * handler for it (the framework then answers 500).
   */
  function Handle(e: Error): (r: Option<Response>)
    ensures r.None? <==> e.IndexOutOfBounds? || e.DataIntegrityViolation?
    ensures e.NotFound? ==> r == Some(Response(NotFoundStatus, ErrorMessage(e.message)))
    ensures e.InvalidCredentials? ==> r == Some(Response(Unauthorized, ErrorMessage(e.message)))
    ensures e.CardOperation? || e.UserOperation? || e.NotReadable? ==> r == Some(Response(BadRequest, ErrorMessage(e.message)))
    ensures e.EncryptFailure? && e.cause.None? ==> r == Some(Response(BadRequest, EncryptErrorMessage(e.message, None)))
    ensures e.EncryptFailure? && e.cause.Some? ==> r == Some(Response(BadRequest, EncryptErrorMessage(e.message, e.cause.value.message)))
    ensures e.NoHandlerFound? ==> r == Some(Response(NotFoundStatus, ErrorMessage(NoHandlerMessage)))
    ensures e.ArgumentNotValid? ==> r == Some(Response(BadRequest, ErrorMessage(ValidationMessage(e.fieldMessages))))
  {
    match e
    case NotFound(message) => Some(Response(NotFoundStatus, ErrorMessage(message)))
    case InvalidCredentials(message) => Some(Response(Unauthorized, ErrorMessage(message)))
    case CardOperation(message) => Some(Response(BadRequest, ErrorMessage(message)))
    case UserOperation(message) => Some(Response(BadRequest, ErrorMessage(message)))
    case EncryptFailure(message, cause) =>
      Some(Response(BadRequest, EncryptErrorMessage(message, if cause.Some? then cause.value.message else None)))
    case NoHandlerFound => Some(Response(NotFoundStatus, ErrorMessage(NoHandlerMessage)))
    case ArgumentNotValid(fieldMessages) => Some(Response(BadRequest, ErrorMessage(ValidationMessage(fieldMessages))))
    case NotReadable(message) => Some(Response(BadRequest, ErrorMessage(message)))
    case IndexOutOfBounds => None
    case DataIntegrityViolation => None
  }

  /** The status the client sees for an exception. */
  function Status(e: Error): (s: int)
    ensures Handle(e).Some? ==> s == Handle(e).value.status
    ensures Handle(e).None? ==> s == InternalServerError
  {
    match Handle(e)
    case Some(response) => response.status
    case None => InternalServerError
  }

  /**
   * The status classes: 404 exactly for a missing entity or route, 401 exactly
   * for bad credentials, 500 exactly for what no handler takes, 400 for the rest.
   */
  lemma StatusClasses(e: Error)
    ensures Status(e) == NotFoundStatus <==> e.NotFound? || e.NoHandlerFound?
    ensures Status(e) == Unauthorized <==> e.InvalidCredentials?
    ensures Status(e) == InternalServerError <==> e.IndexOutOfBounds? || e.DataIntegrityViolation?
    ensures Status(e) == BadRequest <==>
      e.CardOperation? || e.UserOperation? || e.EncryptFailure? || e.ArgumentNotValid? || e.NotReadable?
  {
  }
}

=== FILE: ledger.dfy ===
/** The total of the balances over a set of cards, and how it decomposes. */
module Ledger {
  import opened Entities

  /** The sum of the balances of the cards in `ids`. */
  ghost function SumOver(cards: map<CardId, Card>, ids: set<CardId>): Money
    requires ids <= cards.Keys
    decreases ids
  {
    if exists k :: k in ids then
      var k :| k in ids; cards[k].balance + SumOver(cards, ids - {k})
    else 0.0
  }

  /** All the money on all the cards. */
  ghost function TotalBalance(cards: map<CardId, Card>): Money {
    SumOver(cards, cards.Keys)
  }

  /** Any card of the set can be taken out of the sum first. */
  lemma {:induction false} SumOverRemove(cards: map<CardId, Card>, ids: set<CardId>, k: CardId)
    requires ids <= cards.Keys && k in ids
    ensures SumOver(cards, ids) == cards[k].balance + SumOver(cards, ids - {k})
    decreases ids
  {
    var j :| j in ids && SumOver(cards, ids) == cards[j].balance + SumOver(cards, ids - {j});
    if j != k {
      SumOverRemove(cards, ids - {j}, k);
      SumOverRemove(cards, ids - {k}, j);
      assert ids - {j} - {k} == ids - {k} - {j};
    }
  }

  /** The sum depends only on the balances of the cards in the set. */
  lemma {:induction false} SumOverSameBalances(a: map<CardId, Card>, b: map<CardId, Card>, ids: set<CardId>)
    requires ids <= a.Keys && ids <= b.Keys
    requires forall c :: c in ids ==> a[c].balance == b[c].balance
    ensures SumOver(a, ids) == SumOver(b, ids)
    decreases ids
  {
    if exists k :: k in ids {
      var k :| k in ids;
      SumOverRemove(a, ids, k);
      SumOverRemove(b, ids, k);
      SumOverSameBalances(a, b, ids - {k});
    }
  }
}

=== FILE: number_generator.dfy ===
/** The 16-digit card number drawn digit by digit from a secure random source. */
module NumberGenerator {
  import opened Text

  const NumberLength := 16

  /** A value of `nextInt(10)`. */
  type Digit = d: int | 0 <= d < 10

  /** The number that the draws `draws[0]`, `draws[1]`, ... spell, in loop order. */
  ghost function DrawnNumber(draws: seq<Digit>): (s: string)
    requires |draws| >= NumberLength
  {
    seq(NumberLength, i requires 0 <= i < NumberLength => DigitChar(draws[i]))
  }

  /**
   * `generateNumber`: appends sixteen draws of the random source, the i-th
   * character being the i-th draw. There is no constraint on the first digit
   * (a leading '0' is kept) and no retry against existing numbers.
   */
  method GenerateNumber(draws: seq<Digit>) returns (number: string)
    requires |draws| >= NumberLength
    ensures |number| == NumberLength && IsDigits(number)
    ensures forall i :: 0 <= i < NumberLength ==> number[i] == DigitChar(draws[i])
    ensures number == DrawnNumber(draws)
  {
    number := "";
    for i := 0 to NumberLength
      invariant |number| == i
      invariant forall k :: 0 <= k < i ==> number[k] == DigitChar(draws[k])
    {
      number := number + [DigitChar(draws[i])];
    }
  }

  /** There is no first-digit constraint: a first draw of 0 gives a number starting with '0'. */
  lemma LeadingZeroKept(draws: seq<Digit>)
    requires |draws| >= NumberLength && draws[0] == 0
    ensures DrawnNumber(draws)[0] == '0'
    ensures |DrawnNumber(draws)| == NumberLength && IsDigits(DrawnNumber(draws))
  {
  }
}

=== FILE: repositories.dfy ===
/**
 * The three repositories (users, cards, block requests) as one in-memory
 * store keyed by generated id, with the database's constraints as the
 * store invariant and the derived queries and cascades the services rely on.
 */
module Repositories {
  import opened Text
  import opened Errors
  import opened Entities

  // ---------------------------------------------------------------------------
  // Constraints of the schema
  // ---------------------------------------------------------------------------

  /** `users.email` is UNIQUE. */
  predicate EmailsUnique(users: map<UserId, User>) {
    forall a, b :: a in users && b in users && a != b ==> users[a].email != users[b].email
  }

  /** `cards.number` is UNIQUE. */
  predicate NumbersUnique(cards: map<CardId, Card>) {
    forall a, b :: a in cards && b in cards && a != b ==> cards[a].number != cards[b].number
  }

  /** `cards.user_id` is a NOT NULL foreign key. */
  predicate OwnersKnown(users: map<UserId, User>, cards: map<CardId, Card>) {
    forall c :: c in cards ==> cards[c].owner in users
  }

  /**
   * `request_block.card_id` is a NOT NULL foreign key, and the requesting user
   * is the card's owner (the only way a request is created).
   */
  predicate RequestsKnown(cards: map<CardId, Card>, requests: map<RequestId, BlockRequest>) {
    forall q :: q in requests ==> requests[q].card in cards && requests[q].user == cards[requests[q].card].owner
  }

  /** Cards start at 1000 and a transfer never overdraws, so no balance is negative. */
  predicate BalancesNonNegative(cards: map<CardId, Card>) {
    forall c :: c in cards ==> cards[c].balance >= 0.0
  }

  predicate Consistent(users: map<UserId, User>, cards: map<CardId, Card>, requests: map<RequestId, BlockRequest>) {
    && EmailsUnique(users)
    && NumbersUnique(cards)
    && OwnersKnown(users, cards)
    && RequestsKnown(cards, requests)
    && BalancesNonNegative(cards)
  }

  // ---------------------------------------------------------------------------
  // Derived queries
  // ---------------------------------------------------------------------------

  /** `existsByEmail`. */
  predicate ExistsByEmail(users: map<UserId, User>, email: string) {
    exists id :: id in users && users[id].email == email
  }

  /** `findByEmail`: the one user with that email, if any. */
  function FindIdByEmail(users: map<UserId, User>, email: string): (r: Option<UserId>)
    requires EmailsUnique(users)
    ensures r.Some? <==> ExistsByEmail(users, email)
    ensures r.Some? ==> r.value in users && users[r.value].email == email
    ensures forall id :: id in users && users[id].email == email ==> r == Some(id)
  {
    if exists id | id in users :: users[id].email == email then
      var id :| id in users && users[id].email == email; Some(id)
    else None
  }

  /** `existsByUserAndCard`: a request of any status for that (user, card) pair. */
  predicate ExistsByUserAndCard(requests: map<RequestId, BlockRequest>, user: UserId, card: CardId) {
    exists q :: q in requests && requests[q].user == user && requests[q].card == card
  }

  // ---------------------------------------------------------------------------
  // Cascades (CascadeType.ALL with orphan removal on the one-to-many sides)
  // ---------------------------------------------------------------------------

  /** The block requests that survive deleting card `cardId` (Card.requestBlocks). */
  function RequestsWithoutCard(requests: map<RequestId, BlockRequest>, cardId: CardId): (r: map<RequestId, BlockRequest>)
    ensures forall q :: q in r <==> q in requests && requests[q].card != cardId
    ensures forall q :: q in r ==> r[q] == requests[q]
  {
    map q | q in requests && requests[q].card != cardId :: requests[q]
  }

  /** The cards that survive deleting user `userId` (User.cards). */
  function CardsWithoutOwner(cards: map<CardId, Card>, userId: UserId): (r: map<CardId, Card>)
    ensures forall c :: c in r <==> c in cards && cards[c].owner != userId
    ensures forall c :: c in r ==> r[c] == cards[c]
  {
    map c | c in cards && cards[c].owner != userId :: cards[c]
  }

  /**
   * The block requests that survive deleting user `userId`: those made by the
   * user (User.requestBlocks) go, and so do those on the user's cards, which
   * the removal of the cards cascades to.
   */
  function RequestsWithoutUser(requests: map<RequestId, BlockRequest>, cards: map<CardId, Card>, userId: UserId): (r: map<RequestId, BlockRequest>)
    ensures forall q :: q in r <==> q in requests && requests[q].user != userId && !OnCardOf(cards, requests[q], userId)
    ensures forall q :: q in r ==> r[q] == requests[q]
  {
    map q | q in requests && requests[q].user != userId && !OnCardOf(cards, requests[q], userId) :: requests[q]
  }

  predicate OnCardOf(cards: map<CardId, Card>, request: BlockRequest, userId: UserId) {
    request.card in cards && cards[request.card].owner == userId
  }

  // ---------------------------------------------------------------------------
  // The store
  // ---------------------------------------------------------------------------

  class Store {
    var users: map<UserId, User>
    var cards: map<CardId, Card>
    var requests: map<RequestId, BlockRequest>
    /** The identity columns' next values; ids are never reused. */
    var nextUserId: UserId
    var nextCardId: CardId
    var nextRequestId: RequestId

    ghost predicate Valid()
      reads this
    {
      && Consistent(users, cards, requests)
      && (forall id :: id in users ==> id < nextUserId)
      && (forall id :: id in cards ==> id < nextCardId)
      && (forall id :: id in requests ==> id < nextRequestId)
    }

    constructor ()
      ensures Valid()
      ensures users == map[] && cards == map[] && requests == map[]
      ensures nextUserId == 1 && nextCardId == 1 && nextRequestId == 1
    {
      users, cards, requests := map[], map[], map[];
      nextUserId, nextCardId, nextRequestId := 1, 1, 1;
    }
  }
}

=== FILE: request_block_service.dfy ===
/**
 * RequestBlockService: a card owner asks for a card to be blocked, and an
 * administrator completes the request, which blocks the card.
 */
module RequestBlockService {
  import opened Text
  import opened Errors
  import opened Entities
  import opened Repositories
  import UserService

  const RequestNotFoundMessage := "Не найден запрос на блокировку"
  const CardNotYoursMessage := "Карта вам не принадлежит"
  const AlreadyBlockedMessage := "Карта была заблокирована ранее"
  const AlreadyRequestedMessage := "Запрос на блокировку выбранной карты уже существует"

  /** This service's own not-found text for a card ("Id", where CardService writes "ID"). */
  function CardNotFound(id: CardId): Error {
    NotFound("Карта не найдена. Id: " + LongString(id))
  }

  datatype BlockResponse = BlockResponse(id: RequestId, userId: UserId, cardId: CardId, status: RequestStatus, requestedAt: Timestamp)

  /** The private `response` mapping. */
  function Response(id: RequestId, request: BlockRequest): (r: BlockResponse)
    ensures r.id == id && r.userId == request.user && r.cardId == request.card
    ensures r.status == request.status && r.requestedAt == request.requestedAt
  {
    BlockResponse(id, request.user, request.card, request.status, request.requestedAt)
  }

  // ---------------------------------------------------------------------------
  // Queries
  // ---------------------------------------------------------------------------

  /** `findAll` without paging: every stored request. */
  function FindAll(requests: map<RequestId, BlockRequest>): (r: map<RequestId, BlockResponse>)
    ensures r.Keys == requests.Keys
    ensures forall id :: id in r ==> r[id] == Response(id, requests[id])
    ensures forall id :: id in r ==> r[id].id == id && r[id].userId == requests[id].user && r[id].cardId == requests[id].card
    ensures forall id :: id in r ==> r[id].status == requests[id].status && r[id].requestedAt == requests[id].requestedAt
  {
    map id | id in requests :: Response(id, requests[id])
  }

  /** `findRequestByEmail` without paging: NotFound for an unknown email, else exactly that user's requests. */
  function FindRequestByEmail(users: map<UserId, User>, requests: map<RequestId, BlockRequest>, email: string): (r: Result<map<RequestId, BlockResponse>>)
    requires EmailsUnique(users)
    ensures r.Ok? <==> ExistsByEmail(users, email)
    ensures r.Err? ==> r.error == UserService.UserNotFoundByEmail(email)
    ensures r.Ok? ==> forall id :: id in r.value <==>
      id in requests && requests[id].user in users && users[requests[id].user].email == email
    ensures r.Ok? ==> forall id :: id in r.value ==> r.value[id] == Response(id, requests[id])
  {
    var uid :- UserService.FindByEmail(users, email);
    Ok(map id | id in requests && requests[id].user == uid :: Response(id, requests[id]))
  }

  // ---------------------------------------------------------------------------
  // Creating a request
  // ---------------------------------------------------------------------------

  /** Every condition for a new request, without regard to the order in which they are checked. */
  predicate RequestAllowed(users: map<UserId, User>, cards: map<CardId, Card>, requests: map<RequestId, BlockRequest>, email: string, cardId: CardId)
    requires OwnersKnown(users, cards)
  {
    && ExistsByEmail(users, email)
    && cardId in cards
    && users[cards[cardId].owner].email == email
    && cards[cardId].status != BLOCKED
    && !ExistsByUserAndCard(requests, cards[cardId].owner, cardId)
  }

  /** The error `createRequestBlock` raises: the first failing check, in the order the code makes them. */
  function CreateCheck(users: map<UserId, User>, cards: map<CardId, Card>, requests: map<RequestId, BlockRequest>, email: string, cardId: CardId): (r: Option<Error>)
    requires EmailsUnique(users) && OwnersKnown(users, cards)
    ensures r.None? <==> RequestAllowed(users, cards, requests, email, cardId)
    ensures !ExistsByEmail(users, email) ==> r == Some(UserService.UserNotFoundByEmail(email))
    ensures ExistsByEmail(users, email) && cardId !in cards ==> r == Some(CardNotFound(cardId))
    ensures (ExistsByEmail(users, email) && cardId in cards && users[cards[cardId].owner].email != email) ==>
      r == Some(CardOperation(CardNotYoursMessage))
    ensures (ExistsByEmail(users, email) && cardId in cards && users[cards[cardId].owner].email == email
             && cards[cardId].status == BLOCKED) ==>
      r == Some(CardOperation(AlreadyBlockedMessage))
    ensures (ExistsByEmail(users, email) && cardId in cards && users[cards[cardId].owner].email == email
             && cards[cardId].status != BLOCKED && ExistsByUserAndCard(requests, cards[cardId].owner, cardId)) ==>
      r == Some(CardOperation(AlreadyRequestedMessage))
  {
    match UserService.FindByEmail(users, email)
    case Err(e) => Some(e)
    case Ok(uid) =>
      if cardId !in cards then Some(CardNotFound(cardId))
      else if cards[cardId].owner != uid then Some(CardOperation(CardNotYoursMessage))
      else if cards[cardId].status == BLOCKED then Some(CardOperation(AlreadyBlockedMessage))
      else if exists q | q in requests :: requests[q].user == cards[cardId].owner && requests[q].card == cardId then
        Some(CardOperation(AlreadyRequestedMessage))
      else None
  }

  /** Only BLOCKED is refused: with the other conditions met, an ACTIVE or EXPIRED card may be requested. */
  lemma OnlyBlockedStatusRefused(users: map<UserId, User>, cards: map<CardId, Card>, requests: map<RequestId, BlockRequest>, email: string, cardId: CardId, status: CardStatus)
    requires EmailsUnique(users) && OwnersKnown(users, cards)
    requires cardId in cards
    ensures var changed := cards[cardId := cards[cardId].(status := status)];
      CreateCheck(users, changed, requests, email, cardId).None? <==>
      status != BLOCKED && CreateCheck(users, cards[cardId := cards[cardId].(status := ACTIVE)], requests, email, cardId).None?
  {
  }

  /**
   * `createRequestBlock`: the first failing check is raised and no request is
   * stored; otherwise exactly one NOT_STARTED request of the caller for the
   * card is stored, stamped with the current time, and the card is untouched.
   */
  method CreateRequestBlock(db: Store, email: string, cardId: CardId, now: Timestamp) returns (r: Result<BlockResponse>)
    requires db.Valid()
    modifies db
    ensures db.Valid()
    ensures r.Err? <==> CreateCheck(old(db.users), old(db.cards), old(db.requests), email, cardId).Some?
    ensures r.Err? ==> r.error == CreateCheck(old(db.users), old(db.cards), old(db.requests), email, cardId).value && unchanged(db)
    ensures r.Ok? ==>
      var id := old(db.nextRequestId);
      var owner := old(db.cards)[cardId].owner;
      && id !in old(db.requests)
      && db.requests == old(db.requests)[id := BlockRequest(cardId, owner, NOT_STARTED, now)]
      && r.value == BlockResponse(id, owner, cardId, NOT_STARTED, now)
      && old(db.users)[owner].email == email
      && db.cards == old(db.cards) && db.users == old(db.users)
      && db.nextRequestId == id + 1 && db.nextUserId == old(db.nextUserId) && db.nextCardId == old(db.nextCardId)
  {
    var user :- UserService.FindByEmail(db.users, email);
    if cardId !in db.cards {
      return Err(CardNotFound(cardId));
    }
    var card := db.cards[cardId];
    if card.owner != user {
      return Err(CardOperation(CardNotYoursMessage));
    }
    if card.status == BLOCKED {
      return Err(CardOperation(AlreadyBlockedMessage));
    }
    var userCard := card.owner;
    if exists q | q in db.requests :: db.requests[q].user == userCard && db.requests[q].card == cardId {
      return Err(CardOperation(AlreadyRequestedMessage));
    }
    var request := BlockRequest(cardId, user, NOT_STARTED, now);
    var id := db.nextRequestId;
    db.requests := db.requests[id := request];
    db.nextRequestId := id + 1;
    r := Ok(Response(id, request));
  }

  // ---------------------------------------------------------------------------
  // Completing a request
  // ---------------------------------------------------------------------------

  /**
   * The effect of completing request `id`: its card becomes BLOCKED and the
   * request COMPLETED, whatever they were; no other card or request changes.
   */
  function Complete(cards: map<CardId, Card>, requests: map<RequestId, BlockRequest>, id: RequestId): (r: (map<CardId, Card>, map<RequestId, BlockRequest>))
    requires id in requests && requests[id].card in cards
    ensures var c := requests[id].card;
      && r.0.Keys == cards.Keys && r.1.Keys == requests.Keys
      && r.0[c] == cards[c].(status := BLOCKED)
      && r.1[id] == requests[id].(status := COMPLETED)
      && (forall k :: k in cards && k != c ==> r.0[k] == cards[k])
      && (forall q :: q in requests && q != id ==> r.1[q] == requests[q])
  {
    var c := requests[id].card;
    (cards[c := cards[c].(status := BLOCKED)], requests[id := requests[id].(status := COMPLETED)])
  }

  /** Completing twice leaves the same state as completing once. */
  lemma CompleteIsIdempotent(cards: map<CardId, Card>, requests: map<RequestId, BlockRequest>, id: RequestId)
    requires id in requests && requests[id].card in cards
    ensures var once := Complete(cards, requests, id);
      Complete(once.0, once.1, id) == once
  {
    var once := Complete(cards, requests, id);
    var twice := Complete(once.0, once.1, id);
    assert once.1[id].card == requests[id].card;
    assert twice.0 == once.0 by {
      assert forall k :: k in once.0 ==> twice.0[k] == once.0[k];
    }
    assert twice.1 == once.1 by {
      assert forall q :: q in once.1 ==> twice.1[q] == once.1[q];
    }
  }

  /** Completion keeps the store consistent. */
  lemma CompleteKeepsConsistency(users: map<UserId, User>, cards: map<CardId, Card>, requests: map<RequestId, BlockRequest>, id: RequestId)
    requires Consistent(users, cards, requests) && id in requests
    ensures Consistent(users, Complete(cards, requests, id).0, Complete(cards, requests, id).1)
  {
    var after := Complete(cards, requests, id);
    forall a, b | a in after.0 && b in after.0 && a != b
      ensures after.0[a].number != after.0[b].number
    {
      assert after.0[a].number == cards[a].number && after.0[b].number == cards[b].number;
    }
  }

  /** Once a request is completed, no new request can be made for its card, by anyone. */
  lemma CompletedCardCannotBeRequestedAgain(users: map<UserId, User>, cards: map<CardId, Card>, requests: map<RequestId, BlockRequest>, id: RequestId, email: string)
    requires Consistent(users, cards, requests) && id in requests
    ensures var after := Complete(cards, requests, id);
      CreateCheck(users, after.0, after.1, email, requests[id].card).Some?
  {
    CompleteKeepsConsistency(users, cards, requests, id);
  }

  /**
   * `completeRequestBlock`: NotFound for an unknown request; otherwise the
   * request's card is BLOCKED and the request COMPLETED, and nothing else changes.
   */
  method CompleteRequestBlock(db: Store, id: RequestId) returns (r: Result<()>)
    requires db.Valid()
    modifies db
    ensures db.Valid()
    ensures id !in old(db.requests) ==> r == Err(NotFound(RequestNotFoundMessage)) && unchanged(db)
    ensures id in old(db.requests) ==>
      && r == Ok(())
      && (db.cards, db.requests) == Complete(old(db.cards), old(db.requests), id)
      && db.users == old(db.users)
      && db.nextUserId == old(db.nextUserId) && db.nextCardId == old(db.nextCardId)
      && db.nextRequestId == old(db.nextRequestId)
  {
    if id !in db.requests {
      return Err(NotFound(RequestNotFoundMessage));
    }
    CompleteKeepsConsistency(db.users, db.cards, db.requests, id);
    var request := db.requests[id];
    var card := db.cards[request.card];
    db.cards := db.cards[request.card := card.(status := BLOCKED)];
    db.requests := db.requests[id := request.(status := COMPLETED)];
    r := Ok(());
  }
}

=== FILE: text.dfy ===
/** The few digit and number-to-text helpers the services' messages need. */
module Text {

  /** One decimal digit, as `StringBuilder.append(int)` and `String + long` write it. */
  function DigitChar(d: int): (c: char)
    requires 0 <= d < 10
    ensures '0' <= c <= '9'
    ensures c as int - '0' as int == d
  {
    ('0' as int + d) as char
  }

  predicate IsDigits(s: string) {
    forall i :: 0 <= i < |s| ==> '0' <= s[i] <= '9'
  }

  /** The number a string of decimal digits spells, most significant digit first. */
  function DecimalValue(s: string): nat
    requires IsDigits(s)
  {
    if |s| == 0 then 0 else 10 * DecimalValue(s[..|s| - 1]) + (s[|s| - 1] as int - '0' as int)
  }

  /** Decimal rendering of a natural number, most significant digit first, no leading zeros. */
  function NaturalString(n: nat): (s: string)
    ensures |s| >= 1 && IsDigits(s)
    ensures |s| > 1 ==> s[0] != '0'
    ensures DecimalValue(s) == n
    decreases n
  {
    if n < 10 then [DigitChar(n)]
    else
      var prefix := NaturalString(n / 10);
      var s := prefix + [DigitChar(n % 10)];
      assert s[..|s| - 1] == prefix;
      s
  }

  /** Java's `String.valueOf(long)`: a minus sign before the digits of a negative value. */
  function LongString(n: int): (s: string)
    ensures |s| >= 1
    ensures n >= 0 ==> IsDigits(s) && DecimalValue(s) == n
    ensures n < 0 <==> s[0] == '-'
    ensures n < 0 ==> IsDigits(s[1..]) && DecimalValue(s[1..]) == -n
  {
    if n < 0 then
      var s := "-" + NaturalString(-n);
      assert s[1..] == NaturalString(-n);
      s
    else NaturalString(n)
  }

  /** Different numbers are written differently, so the text names the number. */
  lemma LongStringInjective(a: int, b: int)
    ensures LongString(a) == LongString(b) ==> a == b
  {
  }
}

=== FILE: user_service.dfy ===
/** UserService: lookups, registration, partial update, password change and deletion of users. */
module UserService {
  import opened Text
  import opened Errors
  import opened Entities
  import opened Repositories

  datatype UserResponse = UserResponse(id: UserId, firstName: string, secondName: string, email: string, role: Role)

  datatype UserCreateRequest = UserCreateRequest(firstName: string, secondName: string, email: string, password: string, role: Role)

  /** Every field may be absent (null); only the present ones are applied. */
  datatype UserUpdateRequest = UserUpdateRequest(
    firstName: Option<string>, secondName: Option<string>, email: Option<string>, password: Option<string>)

  function UserNotFoundByEmail(email: string): Error {
    NotFound("Пользователь не найден. Email: " + email)
  }

  function UserNotFoundById(id: UserId): Error {
    NotFound("Пользователь не найден. Id: " + LongString(id))
  }

  function EmailTaken(email: string): Error {
    UserOperation("Пользователь с email " + email + " уже существует")
  }

  /** The private `response` mapping: everything but the password. */
  function Response(id: UserId, user: User): (r: UserResponse)
    ensures r.id == id && r.email == user.email && r.role == user.role
    ensures r.firstName == user.firstName && r.secondName == user.secondName
  {
    UserResponse(id, user.firstName, user.secondName, user.email, user.role)
  }

  /** `findByEmail`: the user's id, or NotFound naming the email. */
  function FindByEmail(users: map<UserId, User>, email: string): (r: Result<UserId>)
    requires EmailsUnique(users)
    ensures r.Ok? <==> ExistsByEmail(users, email)
    ensures r.Ok? ==> r.value in users && users[r.value].email == email
    ensures r.Err? ==> r.error == UserNotFoundByEmail(email)
  {
    match FindIdByEmail(users, email)
    case Some(id) => Ok(id)
    case None => Err(UserNotFoundByEmail(email))
  }

  /** `findUserById`: the stored user, or NotFound naming the id. */
  function FindUserById(users: map<UserId, User>, id: UserId): (r: Result<User>)
    ensures r.Ok? <==> id in users
    ensures r.Ok? ==> r.value == users[id]
    ensures r.Err? ==> r.error == UserNotFoundById(id)
  {
    if id in users then Ok(users[id]) else Err(UserNotFoundById(id))
  }

  /** `findById`: the public view of one user. */
  function FindById(users: map<UserId, User>, id: UserId): (r: Result<UserResponse>)
    ensures r.Ok? <==> id in users
    ensures r.Ok? ==> r.value.id == id && r.value.email == users[id].email && r.value.role == users[id].role
    ensures r.Ok? ==> r.value.firstName == users[id].firstName && r.value.secondName == users[id].secondName
    ensures r.Err? ==> r.error == UserNotFoundById(id)
  {
    var user :- FindUserById(users, id);
    Ok(Response(id, user))
  }

  /** `findAll` without paging: one response per stored user. */
  function FindAll(users: map<UserId, User>): (r: map<UserId, UserResponse>)
    ensures r.Keys == users.Keys
    ensures forall id :: id in r ==> r[id].id == id && r[id].email == users[id].email && r[id].role == users[id].role
    ensures forall id :: id in r ==> r[id].firstName == users[id].firstName && r[id].secondName == users[id].secondName
  {
    map id | id in users :: Response(id, users[id])
  }

  /** The user after an update request: each present field replaces the old one, the password encoded. */
  function Patched(user: User, req: UserUpdateRequest, encode: string -> string): (u: User)
    ensures u.firstName == (if req.firstName.Some? then req.firstName.value else user.firstName)
    ensures u.secondName == (if req.secondName.Some? then req.secondName.value else user.secondName)
    ensures u.email == (if req.email.Some? then req.email.value else user.email)
    ensures u.password == (if req.password.Some? then encode(req.password.value) else user.password)
    ensures u.role == user.role
  {
    var u1 := if req.firstName.Some? then user.(firstName := req.firstName.value) else user;
    var u2 := if req.secondName.Some? then u1.(secondName := req.secondName.value) else u1;
    var u3 := if req.email.Some? then u2.(email := req.email.value) else u2;
    if req.password.Some? then u3.(password := encode(req.password.value)) else u3
  }

  /** An update request with every field absent changes nothing. */
  lemma EmptyPatchIsIdentity(user: User, encode: string -> string)
    ensures Patched(user, UserUpdateRequest(None, None, None, None), encode) == user
  {
  }

  /**
   * Applying the same update request twice leaves the user as the second
   * application alone would: every present field is overwritten again, the
   * password with the second call's (freshly salted) encoding.
   */
  lemma RepeatedPatchKeepsLast(user: User, req: UserUpdateRequest, first: string -> string, second: string -> string)
    ensures Patched(Patched(user, req, first), req, second) == Patched(user, req, second)
  {
  }

  /** Another stored user already has this email, so the unique column refuses it. */
  predicate EmailClash(users: map<UserId, User>, id: UserId, email: string) {
    exists other :: other in users && other != id && users[other].email == email
  }

  /**
   * `createUser`: refuses a taken email before storing anything; otherwise
   * stores exactly one new user, copied from the request with the password encoded.
   */
  method CreateUser(db: Store, req: UserCreateRequest, encode: string -> string) returns (r: Result<UserResponse>)
    requires db.Valid()
    modifies db
    ensures db.Valid()
    ensures ExistsByEmail(old(db.users), req.email) ==> r == Err(EmailTaken(req.email)) && unchanged(db)
    ensures !ExistsByEmail(old(db.users), req.email) ==>
      var id := old(db.nextUserId);
      && id !in old(db.users)
      && r == Ok(UserResponse(id, req.firstName, req.secondName, req.email, req.role))
      && db.users == old(db.users)[id := User(req.firstName, req.secondName, req.email, encode(req.password), req.role)]
      && db.nextUserId == id + 1
      && db.cards == old(db.cards) && db.requests == old(db.requests)
      && db.nextCardId == old(db.nextCardId) && db.nextRequestId == old(db.nextRequestId)
  {
    if exists id | id in db.users :: db.users[id].email == req.email {
      return Err(EmailTaken(req.email));
    }
    var user := User(req.firstName, req.secondName, req.email, encode(req.password), req.role);
    var id := db.nextUserId;
    db.users := db.users[id := user];
    db.nextUserId := id + 1;
    r := Ok(Response(id, user));
  }

  /**
   * `updateUser`: NotFound for an unknown id; otherwise the present fields are
   * applied. An email that another user already has is refused by the unique
   * column at save, and then nothing changes.
   */
  method UpdateUser(db: Store, id: UserId, req: UserUpdateRequest, encode: string -> string) returns (r: Result<UserResponse>)
    requires db.Valid()
    modifies db
    ensures db.Valid()
    ensures id !in old(db.users) ==> r == Err(UserNotFoundById(id)) && unchanged(db)
    ensures id in old(db.users) ==>
      var u := Patched(old(db.users)[id], req, encode);
      if EmailClash(old(db.users), id, u.email) then
        r == Err(DataIntegrityViolation) && unchanged(db)
      else
        && r == Ok(Response(id, u))
        && db.users == old(db.users)[id := u]
        && db.cards == old(db.cards) && db.requests == old(db.requests)
        && db.nextUserId == old(db.nextUserId) && db.nextCardId == old(db.nextCardId)
        && db.nextRequestId == old(db.nextRequestId)
  {
    var user :- FindUserById(db.users, id);
    if req.firstName.Some? {
      user := user.(firstName := req.firstName.value);
    }
    if req.secondName.Some? {
      user := user.(secondName := req.secondName.value);
    }
    if req.email.Some? {
      user := user.(email := req.email.value);
    }
    if req.password.Some? {
      user := user.(password := encode(req.password.value));
    }
    if exists other | other in db.users :: other != id && db.users[other].email == user.email {
      return Err(DataIntegrityViolation);
    }
    db.users := db.users[id := user];
    r := Ok(Response(id, user));
  }

  /** `updatePassword`: NotFound for an unknown email; otherwise only that user's password changes. */
  method UpdatePassword(db: Store, email: string, newPassword: string, encode: string -> string) returns (r: Result<()>)
    requires db.Valid()
    modifies db
    ensures db.Valid()
    ensures !ExistsByEmail(old(db.users), email) ==> r == Err(UserNotFoundByEmail(email)) && unchanged(db)
    ensures ExistsByEmail(old(db.users), email) ==>
      var id := FindIdByEmail(old(db.users), email).value;
      && r == Ok(())
      && db.users == old(db.users)[id := old(db.users)[id].(password := encode(newPassword))]
      && db.cards == old(db.cards) && db.requests == old(db.requests)
      && db.nextUserId == old(db.nextUserId) && db.nextCardId == old(db.nextCardId)
      && db.nextRequestId == old(db.nextRequestId)
  {
    var id :- FindByEmail(db.users, email);
    db.users := db.users[id := db.users[id].(password := encode(newPassword))];
    r := Ok(());
  }

  /**
   * `deleteUser`: NotFound for an unknown id; otherwise the user goes, and with
   * it every card it owns and every block request it made or that is on its cards.
   */
  method DeleteUser(db: Store, id: UserId) returns (r: Result<()>)
    requires db.Valid()
    modifies db
    ensures db.Valid()
    ensures id !in old(db.users) ==> r == Err(UserNotFoundById(id)) && unchanged(db)
    ensures id in old(db.users) ==>
      && r == Ok(())
      && db.users == old(db.users) - {id}
      && db.cards == CardsWithoutOwner(old(db.cards), id)
      && db.requests == RequestsWithoutUser(old(db.requests), old(db.cards), id)
      && db.nextUserId == old(db.nextUserId) && db.nextCardId == old(db.nextCardId)
      && db.nextRequestId == old(db.nextRequestId)
  {
    var _ :- FindUserById(db.users, id);
    DeleteUserKeepsConsistency(db.users, db.cards, db.requests, id);
    db.requests := RequestsWithoutUser(db.requests, db.cards, id);
    db.cards := CardsWithoutOwner(db.cards, id);
    db.users := db.users - {id};
    r := Ok(());
  }

  /** The cascade leaves no dangling reference: the store stays consistent. */
  lemma DeleteUserKeepsConsistency(users: map<UserId, User>, cards: map<CardId, Card>, requests: map<RequestId, BlockRequest>, id: UserId)
    requires Consistent(users, cards, requests)
    ensures Consistent(users - {id}, CardsWithoutOwner(cards, id), RequestsWithoutUser(requests, cards, id))
  {
  }
}
